=== FILE: README.md ===
# Task manager store — a verified model

This project models the core of a small task-manager web service. That core is:

- The in-memory store of tasks and their subtasks (`main.py`).
- The request shapes and validators the store relies on (`model.py`).

The store holds tasks by id. Each task owns an ordered list of subtasks. The handlers do the following:

- Tasks: create, get, patch, delete, complete and undo.
- Subtasks: create, patch, delete, complete and undo.
- Listings:
  - Tasks are filtered by free text, a due-date window and a named list ("today", "upcoming", "done"), then sorted by due date.
  - Subtasks are sorted by due date, then creation time.
- Calendar integration is simulated. When an event is created, or when a subtask is flagged for a calendar, the store asks a fake provider for an event id.

Modules:

- `Wrappers`: `Option` and `Result`.
- `Model`: entity and payload shapes, field constraints, and the two validators that raise (query range, calendar event).
- `EventIds`: the ids the simulated provider hands out. The n-th id is `"evt_"` followed by n in decimal, and distinct calls give distinct ids.
- `StableSort`: a stable insertion sort by a tuple key. It is proved sorted, a permutation and stable. It is also proved to be the only sequence with those properties, so it is the result Python's `list.sort`/`sorted` produce.
- `Listing`: the three listing filters (`_matches_query`, `_in_due_range`, `_matches_list_filter`), the selection they make, and the sort keys.
- `Patching`: the specification functions for the handlers' merges:
  - the task patch with its three-way `calendar_event`;
  - the new subtask and the patched subtask, with the automatic event-id rule;
  - subtask lookup and removal.
- `Store`: the `TaskStore` class. It has these fields:
  - `tasks: map<Id, Task>`, the `TASKS` dict.
  - `order`, the dict's insertion order, which is the order the listing visits tasks in.
  - `nextId`, a counter standing in for `uuid4`.
  - `eventSeq`, a counter standing in for the provider.
  - `zones`, the set of zone names the timezone database resolves.

  Each handler that changes the store is a method that updates these fields step by step, as the source does; the two read-only handlers, `GetTask` and `ListSubtasks`, are functions. It is proved against the functions in `Patching`, `Listing` and `StableSort`. Every method keeps the store invariant `Valid()`:
  - each entry is filed under its own id;
  - each entry satisfies the model's constraints;
  - every subtask carries its task's id as `task_id`;
  - subtask ids are unique within a task;
  - every id is below `nextId`.

Timestamps are integers, in seconds since the Unix epoch. "Now" is a parameter of the handlers that read the clock.

## Model

| member | source | states |
|---|---|---|
| Model.TitleOk | model.py:89 | a title is valid iff it has at least one character; the same bound holds for subtask, task and patch titles (model.py:111, 133, 148) |
| Model.DurationOk | model.py:95 | an event duration is valid iff it is between 1 and 24 * 60 = 1440 minutes, for subtask bodies and patches alike (model.py:115) |
| Model.ReminderOk | model.py:54-56 | a reminder is valid iff it is absent or at least 0 minutes |
| Model.SavedEventOk | model.py:79-81 | a saved event is an event that passes the event validator and has a non-empty event_id |
| Model.SubTaskCreateOk | model.py:86-99 | a subtask create body is valid iff its title is non-empty and its duration is within 1..1440 |
| Model.SubTaskUpdateOk | model.py:107-117 | a subtask patch is valid iff a given title is non-empty and a given duration is within 1..1440; omitted fields are unconstrained |
| Model.SubTaskOk | model.py:120-125 | a stored subtask keeps the base constraints: non-empty title, duration within 1..1440 |
| Model.TaskCreateOk | model.py:139-141 | a task create body is valid iff its title is non-empty and a given calendar event passes the event validator |
| Model.TaskUpdateOk | model.py:144-153 | a task patch is valid iff a given title is non-empty, a create-shape event passes the event validator, and a saved event is valid with a non-empty event_id |
| Model.TaskOk | model.py:156-162 | a stored task has a non-empty title, a valid saved event if it has one, and only valid subtasks |
| Model.CheckRange | model.py:35-39 | an accepted query is returned unchanged; a rejected one carries exactly the inverted-range violation |
| Model.CheckRangeAcceptsNonEmptyWindow | model.py:35-39 | a query is accepted exactly when its inclusive, optional due window contains some instant, so equal bounds and a missing bound are accepted |
| Model.EventOk | model.py:48-71 | an event is acceptable iff calendar_id and summary are non-empty, the reminder is absent or at least 0, the timezone resolves and start is strictly before end |
| Model.ValidateEvent | model.py:44-71 | an event is accepted iff calendar_id and summary are non-empty, the reminder is absent or at least 0, the timezone resolves and start is strictly before end; an accepted event is returned unchanged; a rejection names at least one violation; each of the four field violations (empty calendar_id, empty summary, negative reminder, unresolvable zone) is reported exactly when its constraint fails; an event whose fields all pass but whose end is not after its start is rejected with the time-order violation alone, which appears in no other case |
| Model.DefaultSubTaskCreate | model.py:86-99 | a subtask payload giving only a title is valid exactly when the title is non-empty; completed and add_to_calendar default to false, event_duration_minutes to 60, due, calendar_id and calendar_event_id to absent |
| Model.DefaultTaskCreate | model.py:130-141 | a task payload giving only a title is valid for any zone set exactly when the title is non-empty; completed defaults to false, note, due and calendar_event to absent |
| EventIds.EventId | main.py:30-31 | every simulated provider id starts with "evt_" and is longer than that prefix |
| EventIds.EventIdsDistinct | main.py:30-31 | two different provider calls never return the same event id |
| EventIds.Decimal | main.py:31 | the numeral that follows the prefix is non-empty, all digits, and a single digit exactly for numbers below ten |
| EventIds.DecimalInjective | main.py:31 | different numbers have different numerals |
| StableSort.KeyLeTotalOrder | main.py:134 | the tuple key order (undated last, then due, then created) is reflexive, total, antisymmetric and transitive |
| StableSort.SortBy | main.py:134 | the sorted list is a permutation of its input, of the same length, and ordered by the key |
| StableSort.InsertSorted | main.py:134 | inserting into a sorted list keeps it sorted |
| StableSort.SortByStable | main.py:134 | for every key, the elements with that key appear in the sorted list in their original relative order |
| StableSort.SortedStableUnique | main.py:134 | two sorted lists that agree, key by key, on the order of their elements are equal |
| StableSort.SortByIsTheStableSort | main.py:200 | any sorted arrangement that keeps the original order within each key equals SortBy, so the model's sort is the library's stable sort |
| Listing.Lower | main.py:74 | lower-casing keeps the length, leaves no upper-case letter, turns each upper-case letter into the lower-case letter at the same place in the alphabet, and leaves every other character as it was |
| Listing.LowerIdempotent | main.py:74 | lower-casing twice is lower-casing once |
| Listing.ContainsIffOccurs | main.py:75 | the substring test holds exactly when the needle occurs at some position of the haystack |
| Listing.MatchesQuery | main.py:71-75 | an absent or empty q keeps every task; otherwise the lower-cased q must occur in the lower-cased title or in a non-empty note |
| Listing.InDueRange | main.py:77-84 | an undated task passes; a dated task fails when it is before a given due_from or after a given due_to |
| Listing.MatchesListFilter | main.py:86-99 | no filter keeps every task; "done" keeps completed tasks; "today" keeps dated tasks whose Colombo day is today; "upcoming" keeps dated tasks whose Colombo day is later |
| Listing.MatchesQueryMeaning | main.py:71-75 | with a non-empty q, a task matches iff lower(q) occurs in lower(title) or in lower(note); a task without a note can match only through its title |
| Listing.MatchesQueryIgnoresCase | main.py:71-75 | a query and its lower-cased form select the same tasks |
| Listing.InDueRangeMeaning | main.py:77-84 | an undated task always passes; a dated task passes iff due_from <= due <= due_to for the bounds given |
| Listing.ColomboDay | main.py:94-98 | the Colombo calendar day of an instant is the day whose local seconds contain the instant shifted by +05:30 |
| Listing.ColomboDayMonotone | main.py:94 | a later instant never falls on an earlier Colombo calendar day |
| Listing.ListFilterMeaning | main.py:86-99 | "done" keeps exactly the completed tasks; "today" and "upcoming" never keep an undated task; no task is both due today and upcoming |
| Listing.ListFilterAgainstNow | main.py:91-98 | an upcoming task is due strictly after now; a task due today is due less than a day from now |
| Listing.SelectedMembers | main.py:124-132 | the filter loop keeps exactly the input tasks that pass all three filters |
| Listing.SelectedStep | main.py:125-132 | visiting one more task extends the selection by that task exactly when it passes all three filters |
| Listing.SortedSelectedMembers | main.py:124-135 | sorting the selection neither adds nor drops a task: the listing holds exactly the visited tasks that pass |
| Listing.TaskKey | main.py:134 | the listing's sort key: undated tasks after dated ones, then due date |
| Listing.SubTaskKey | main.py:200 | the subtask sort key: undated after dated, then due date, then created_at |
| Listing.TaskOrderMeaning | main.py:133-134 | in a sorted listing, dated tasks come before undated ones and dated tasks are in ascending due order |
| Listing.SubTaskOrderMeaning | main.py:199-200 | in a sorted subtask list, dated before undated, ascending due, and equal due dates (or both undated) by ascending created_at |
| Patching.PatchTask | main.py:49-69 | the task after `_apply_task_update`: title, note, due and completed overwritten where the patch gives them, and calendar_event set by the three-way rule |
| Patching.PatchTaskFrame | main.py:49-57 | a patch never changes the task's id or subtasks and cannot clear the note or the due date |
| Patching.PatchTaskKeepsOmitted | main.py:50-57 | each of title, note, due and completed that the patch omits keeps its value, and each one it gives is taken from the patch |
| Patching.PatchTaskEvent | main.py:59-69 | omitted calendar_event keeps the event, null clears it, a create shape yields an event with the payload's fields and the issued id, a saved event is stored as given |
| Patching.EmptyPatchIsIdentity | main.py:49-69 | a patch that gives no field leaves the task unchanged |
| Patching.PatchTaskIdempotent | main.py:49-69 | applying a patch that does not create an event twice is the same as applying it once |
| Patching.PatchTaskKeepsOk | main.py:49-69 | a valid patch applied to a valid task gives a valid task (title, saved event and subtasks) |
| Patching.IssuesOnCreate | main.py:220 | creation asks the provider for an event id iff add_to_calendar is set, calendar_id is non-empty and no calendar_event_id was given (a given empty id does not trigger it) |
| Patching.NewSubTask | main.py:206-221 | the subtask `create_subtask` builds from the payload, the two clock readings and, when the calendar rule asks, the issued event id |
| Patching.NewSubTaskMeaning | main.py:206-221 | a new subtask copies its payload, belongs to its task, copies add_to_calendar, takes created_at and updated_at from the handler's two clock readings, stores the issued event id exactly when the creation rule fires, keeps a given event id, has none when none was given and the rule does not fire, and so on a named calendar always has an event id |
| Patching.CreateKeepsEmptyEventId | main.py:220-221 | for every payload with an explicitly empty calendar_event_id, creation keeps it, while a later update on a named calendar replaces it with an issued id |
| Patching.NewSubTaskKeepsOk | main.py:204-218 | a valid create payload gives a valid subtask |
| Patching.IssuesOnUpdate | main.py:248 | an update asks the provider for an event id iff add_to_calendar is set, calendar_id is non-empty and the event id is missing or empty |
| Patching.PatchSubTask | main.py:232-251 | the subtask after `update_subtask`: each given field overwritten, then an issued event id when it is on a named calendar without a non-empty id, and updated_at set to now |
| Patching.PatchSubTaskMeaning | main.py:247-251 | after an update, a subtask flagged for a named calendar has a non-empty event id; id, task_id and created_at are unchanged; updated_at is now |
| Patching.PatchSubTaskKeepsOmitted | main.py:232-245 | each field the patch omits keeps its value (a non-empty event id included) |
| Patching.PatchSubTaskKeepsOk | main.py:232-245 | a valid patch keeps a subtask's title and duration within bounds |
| Patching.SetSubTaskCompleted | main.py:267-268 | the subtask after complete_subtask or undo_subtask (also main.py:276-277): completed set to the given flag and updated_at to now |
| Patching.SetSubTaskCompletedMeaning | main.py:263-278 | complete/undo set completed and updated_at and nothing else, and repeating them changes only updated_at |
| Patching.IndexOf | main.py:43-47 | the lookup returns the first subtask with the id, or the list length when there is none |
| Patching.UniqueIndex | main.py:43-47 | when subtask ids are unique, looking up a subtask's id finds that very subtask |
| Patching.RemoveById | main.py:259 | the comprehension that drops the subtasks with the given id; its own contract is only that it is never longer than its input; what it keeps is stated by the two rows below |
| Patching.RemoveByIdMembers | main.py:259 | the comprehension keeps exactly the subtasks whose id is not the removed one |
| Patching.RemoveUniqueIsSplice | main.py:255-260 | with unique ids, removal deletes exactly the found subtask and keeps the others in order |
| Store.Erase | main.py:176 | deleting a key removes exactly that id from the iteration order and keeps the order duplicate-free |
| Store.EraseIsSplice | main.py:176 | in a duplicate-free order, deleting a key removes exactly its one position and keeps the other keys in order |
| Store.TaskStore.constructor | main.py:23 | the store starts empty and valid |
| Store.TaskStore.SubtasksBelongToTask | main.py:206-208 | every stored task is filed under its own id, and its subtasks carry that id as task_id and have distinct ids |
| Store.TaskStore.StoredIsValues | main.py:125 | the tasks visited in insertion order are exactly the dict's values |
| Store.TaskStore.IssueEventId | main.py:30-31 | the provider call returns the next event id and advances the counter |
| Store.TaskStore.FreshId | main.py:149 | a fresh id is above every id handed out before, and the store stays valid |
| Store.TaskStore.GetTask | main.py:37-41 | a lookup succeeds iff the id is stored and returns that task; otherwise it is TaskNotFound |
| Store.TaskStore.ListTasks | main.py:116-135 | an inverted range is rejected (and only that); otherwise the result is the stable sort, by due date with undated last, of the stored tasks that pass all filters in insertion order; it is sorted and holds exactly the stored tasks that pass |
| Store.TaskStore.CreateTask | main.py:138-158 | adds exactly one new key; the task copies the payload, has no subtasks, and has an event iff the payload asked for one, carrying the fields and a freshly issued id; the id counter advances by one |
| Store.TaskStore.OverwriteTaskFields | main.py:49-57 | the step-by-step assignments give the task with title, note, due and completed overwritten where the patch gives them |
| Store.TaskStore.UpdateTask | main.py:166-170 | a missing id is TaskNotFound and changes nothing; otherwise the stored task becomes PatchTask of the old one, no other entry changes, and an event id is issued only for a create-shape event |
| Store.TaskStore.DeleteTask | main.py:173-177 | a missing id is TaskNotFound and changes nothing; otherwise exactly that key is removed and every other entry is unchanged |
| Store.TaskStore.CompleteTask | main.py:180-184 | sets completed to true and changes nothing else; on a completed task it changes nothing |
| Store.TaskStore.UndoTask | main.py:187-191 | sets completed to false and changes nothing else; on an open task it changes nothing |
| Store.TaskStore.ListSubtasks | main.py:196-200 | a missing task is TaskNotFound; otherwise a permutation of its subtasks sorted by (undated last, due, created_at), all belonging to the task, and subtasks with equal keys keep their stored order (the stability of `sorted`) |
| Store.TaskStore.CreateSubtask | main.py:203-224 | a missing task is TaskNotFound; otherwise NewSubTask with a fresh id is appended to the end of the task's subtasks, and an event id is issued exactly when the calendar rule asks; the id counter advances by one on success only |
| Store.TaskStore.OverwriteFields | main.py:232-245 | the step-by-step assignments give the subtask with every field the patch gives overwritten |
| Store.TaskStore.FillEventId | main.py:247-249 | the subtask gets a freshly issued event id exactly when it is on a named calendar without a non-empty id, and nothing else changes |
| Store.TaskStore.UpdateSubtask | main.py:227-252 | a missing task or subtask is the matching NotFound and changes nothing; otherwise the subtask is replaced in place by PatchSubTask, and an event id is issued exactly when the patched subtask is on a named calendar without a non-empty id |
| Store.TaskStore.DeleteSubtask | main.py:255-260 | a missing task or subtask is the matching NotFound; otherwise exactly the found subtask is removed and the others keep their order |
| Store.TaskStore.CompleteSubtask | main.py:263-269 | a missing task or subtask is the matching NotFound; otherwise that subtask alone gets completed = true and updated_at = now |
| Store.TaskStore.UndoSubtask | main.py:272-278 | a missing task or subtask is the matching NotFound; otherwise that subtask alone gets completed = false and updated_at = now |

## Left out

- HTTP routing, status codes, CORS and the root ping are framework glue (`main.py:106-113`, `main.py:282-284`). NotFound is a `Result` error instead of an `HTTPException`.
- Pydantic parsing, JSON, `extra="forbid"` and `model_fields_set` are not modelled.
  - Field presence is the `Option` fields and the `EventPatch` tri-state.
  - Request bodies are validated before a handler runs, so the store methods require valid payloads (`TaskCreateOk`, `TaskUpdateOk`, `SubTaskCreateOk`, `SubTaskUpdateOk`). The rejection path for bodies is the predicates themselves.
  - `ValidateEvent` is the one validator modelled with its full error reporting.
- The inverted-range check is the only rejection `list_tasks` can produce. It happens inside the handler (`main.py:123`). The model returns `Rejected` and does not model which status code the framework turns it into.
- `uuid4` is replaced by the counter `nextId`. Tasks and subtasks share this counter, so ids are distinct by construction.
- `_fake_provider_event_id` is modelled as a counter. Its `evt_<uuid>` format becomes `evt_<decimal counter>`, which keeps the prefix and the distinctness.
- The clock is a parameter. `create_subtask` reads `datetime.utcnow` twice (`main.py:216-217`), so `CreateSubtask` takes both readings, `createdAt` and `updatedAt`, and nothing relates them. The other subtask handlers read it once and take it as `now`.
- Store.TaskStore.ListTasks: `_matches_list_filter` calls `_colombo_today()` afresh for each task (`main.py:94`, `main.py:98`). The model reads the clock once per listing and uses that one Colombo day for every task, so a listing that runs across local midnight is not modelled.
- The timezone database is the `zones` set of the store. ZoneInfo lookups are not modelled.
- Asia/Colombo is taken as a fixed +05:30 offset. This is its offset since 2006; earlier historical offsets are not modelled.
- Listing.Lower: lower-cases ASCII letters only, not Python's full Unicode `str.lower`.
- Naive versus aware datetime comparison and `datetime.max` are not modelled, because timestamps are integers and "undated" is `None`.
- Object identity and aliasing are not modelled: tasks and subtasks are values written back into the map. The in-place mutation of the shared task object therefore shows up as an update of the map entry.
- Concurrent requests are not modelled.
- `TaskListItem` and `TaskDetail` add no behaviour and are not modelled (`model.py:168-182`).

=== FILE: event_ids.dfy ===
/** Simulated provider event ids. The service formats a fresh random value
    as "evt_<uuid>"; here the n-th issued id is "evt_" followed by n in
    decimal, so that ids issued by a counter are provably distinct. */
module EventIds {

  function DigitChar(d: nat): (c: char)
    requires d < 10
    ensures '0' <= c <= '9'
  {
    (('0' as int) + d) as char
  }

  /** The decimal numeral of n, without leading zeros. */
  function Decimal(n: nat): (s: string)
    ensures |s| >= 1
    ensures forall i :: 0 <= i < |s| ==> '0' <= s[i] <= '9'
    ensures n < 10 <==> |s| == 1
    decreases n
  {
    if n < 10 then [DigitChar(n)] else Decimal(n / 10) + [DigitChar(n % 10)]
  }

  /** Different numbers have different numerals. */
  lemma {:induction false} DecimalInjective(m: nat, n: nat)
    requires Decimal(m) == Decimal(n)
    ensures m == n
    decreases m
  {
    if m >= 10 && n >= 10 {
      var a, b := Decimal(m), Decimal(n);
      assert a[..|a| - 1] == Decimal(m / 10);
      assert b[..|b| - 1] == Decimal(n / 10);
      DecimalInjective(m / 10, n / 10);
      assert DigitChar(m % 10) == a[|a| - 1] == b[|b| - 1] == DigitChar(n % 10);
    }
  }

  const EventIdPrefix: string := "evt_"

  /** The id handed out by the n-th call to the simulated provider. */
  function EventId(n: nat): (s: string)
    ensures |s| > |EventIdPrefix| && s[..|EventIdPrefix|] == EventIdPrefix
  {
    EventIdPrefix + Decimal(n)
  }

  /** Two different calls to the simulated provider never return the same id. */
  lemma EventIdsDistinct(m: nat, n: nat)
    requires m != n
    ensures EventId(m) != EventId(n)
  {
    if EventId(m) == EventId(n) {
      assert Decimal(m) == EventId(m)[|EventIdPrefix|..];
      assert Decimal(n) == EventId(n)[|EventIdPrefix|..];
      DecimalInjective(m, n);
    }
  }
}

=== FILE: listing.dfy ===
/** The filters and sort keys of the task listing (main.py). "Now" is a
    parameter; the reference timezone is Asia/Colombo. */
module Listing {
  import opened Wrappers
  import opened Model
  import opened StableSort

  // ---------- Case-insensitive search ----------

  function LowerChar(c: char): char
  {
    if 'A' <= c <= 'Z' then (c as int + 32) as char else c
  }

  /** Lower-casing (ASCII letters only): no upper-case letter is left, each
      one becomes the lower-case letter at the same place in the alphabet,
      and every other character stays. */
  function Lower(s: string): (r: string)
    ensures |r| == |s|
    ensures forall i :: 0 <= i < |r| ==> !('A' <= r[i] <= 'Z')
    ensures forall i :: 0 <= i < |s| && 'A' <= s[i] <= 'Z' ==> 'a' <= r[i] <= 'z'
    ensures forall i :: 0 <= i < |s| && 'A' <= s[i] <= 'Z' ==> r[i] as int - 'a' as int == s[i] as int - 'A' as int
    ensures forall i :: 0 <= i < |s| && !('A' <= s[i] <= 'Z') ==> r[i] == s[i]
  {
    seq(|s|, i requires 0 <= i < |s| => LowerChar(s[i]))
  }

  /** Lower-casing twice is lower-casing once. */
  lemma LowerIdempotent(s: string)
    ensures Lower(Lower(s)) == Lower(s)
  {
  }

  /** Python's `needle in hay` for strings. */
  function Contains(hay: string, needle: string): bool
    decreases |hay|
  {
    if |needle| > |hay| then false
    else hay[..|needle|] == needle || Contains(hay[1..], needle)
  }

  predicate OccursAt(hay: string, needle: string, i: int)
  {
    0 <= i && i + |needle| <= |hay| && hay[i..i + |needle|] == needle
  }

  /** Contains finds exactly the occurrences of needle in hay. */
  lemma {:induction false} ContainsIffOccurs(hay: string, needle: string)
    ensures Contains(hay, needle) <==> exists i :: OccursAt(hay, needle, i)
    decreases |hay|
  {
    if |needle| <= |hay| {
      if hay[..|needle|] == needle {
        assert OccursAt(hay, needle, 0);
      } else {
        ContainsIffOccurs(hay[1..], needle);
        forall i | OccursAt(hay[1..], needle, i)
          ensures OccursAt(hay, needle, i + 1)
        {
          assert hay[1..][i..i + |needle|] == hay[i + 1..i + 1 + |needle|];
        }
        forall i | OccursAt(hay, needle, i)
          ensures OccursAt(hay[1..], needle, i - 1)
        {
          assert i != 0;
          assert hay[1..][i - 1..i - 1 + |needle|] == hay[i..i + |needle|];
        }
      }
    }
  }

  /** The free-text filter: an absent or empty q keeps every task; otherwise
      q must occur, ignoring case, in the title or in a non-empty note. */
  predicate MatchesQuery(t: Task, q: Option<string>)
  {
    if q.None? || q.value == "" then true
    else
      var ql := Lower(q.value);
      Contains(Lower(t.title), ql) || (t.note.Some? && t.note.value != "" && Contains(Lower(t.note.value), ql))
  }

  /** Searching is insensitive to the case of the query. */
  lemma MatchesQueryIgnoresCase(t: Task, q: string)
    ensures MatchesQuery(t, Some(Lower(q))) == MatchesQuery(t, Some(q))
  {
    LowerIdempotent(q);
    assert Lower(q) == "" <==> q == "";
  }

  /** With a non-empty query, a task matches exactly when the query occurs in
      its title or its note; a task without a note can match only through
      its title. */
  lemma MatchesQueryMeaning(t: Task, q: string)
    requires q != ""
    ensures MatchesQuery(t, Some(q)) <==>
              (exists i :: OccursAt(Lower(t.title), Lower(q), i))
              || (t.note.Some? && exists i :: OccursAt(Lower(t.note.value), Lower(q), i))
  {
    ContainsIffOccurs(Lower(t.title), Lower(q));
    if t.note.Some? {
      ContainsIffOccurs(Lower(t.note.value), Lower(q));
    }
  }

  // ---------- Due range ----------

  /** Undated tasks always pass the range; dated ones must lie within the
      inclusive bounds that are given. */
  predicate InDueRange(t: Task, dueFrom: Option<Timestamp>, dueTo: Option<Timestamp>)
  {
    if t.due.None? then true
    else if dueFrom.Some? && t.due.value < dueFrom.value then false
    else if dueTo.Some? && t.due.value > dueTo.value then false
    else true
  }

  lemma InDueRangeMeaning(t: Task, dueFrom: Option<Timestamp>, dueTo: Option<Timestamp>)
    ensures InDueRange(t, dueFrom, dueTo) <==> t.due.None? || InWindow(dueFrom, dueTo, t.due.value)
  {
  }

  // ---------- Named filters ----------

  /** Asia/Colombo is five and a half hours ahead of UTC. */
  const ColomboOffsetSeconds: int := 5 * 3600 + 30 * 60
  const SecondsPerDay: int := 86400

  /** The calendar day (days since 1970-01-01) of an instant, in Asia/Colombo:
      the day whose 86400 local seconds contain the instant's local time. */
  function ColomboDay(t: Timestamp): (d: int)
    ensures d * SecondsPerDay <= t + ColomboOffsetSeconds < (d + 1) * SecondsPerDay
  {
    (t + ColomboOffsetSeconds) / SecondsPerDay
  }

  /** Later instants never fall on earlier days. */
  lemma ColomboDayMonotone(a: Timestamp, b: Timestamp)
    requires a <= b
    ensures ColomboDay(a) <= ColomboDay(b)
  {
    var x, y := a + ColomboOffsetSeconds, b + ColomboOffsetSeconds;
    assert x / SecondsPerDay * SecondsPerDay <= x < (x / SecondsPerDay + 1) * SecondsPerDay;
    assert y / SecondsPerDay * SecondsPerDay <= y < (y / SecondsPerDay + 1) * SecondsPerDay;
  }

  predicate MatchesListFilter(t: Task, filter: Option<TaskListFilter>, today: int)
  {
    match filter
    case None => true
    case Some(Done) => t.completed
    case Some(Today) => t.due.Some? && ColomboDay(t.due.value) == today
    case Some(Upcoming) => t.due.Some? && ColomboDay(t.due.value) > today
  }

  /** "done" keeps exactly the completed tasks, "today" and "upcoming" never
      keep an undated task, and no task is both due today and upcoming. */
  lemma ListFilterMeaning(t: Task, today: int)
    ensures MatchesListFilter(t, Some(Done), today) <==> t.completed
    ensures t.due.None? ==> !MatchesListFilter(t, Some(Today), today) && !MatchesListFilter(t, Some(Upcoming), today)
    ensures !(MatchesListFilter(t, Some(Today), today) && MatchesListFilter(t, Some(Upcoming), today))
  {
  }

  /** An upcoming task is due strictly after now; a task due today is due
      less than a day away from now. */
  lemma ListFilterAgainstNow(t: Task, now: Timestamp)
    ensures MatchesListFilter(t, Some(Upcoming), ColomboDay(now)) ==> t.due.value > now
    ensures MatchesListFilter(t, Some(Today), ColomboDay(now)) ==>
              now - SecondsPerDay < t.due.value < now + SecondsPerDay
  {
    if t.due.Some? {
      var d := t.due.value;
      if d <= now { ColomboDayMonotone(d, now); }
      if d >= now + SecondsPerDay {
        ColomboDayMonotone(now + SecondsPerDay, d);
        assert ColomboDay(now + SecondsPerDay) == ColomboDay(now) + 1;
      }
      if d <= now - SecondsPerDay {
        ColomboDayMonotone(d, now - SecondsPerDay);
        assert ColomboDay(now - SecondsPerDay) == ColomboDay(now) - 1;
      }
    }
  }

  // ---------- Selection and order ----------

  /** The three filters list_tasks applies, all of which must pass. */
  predicate Keep(t: Task, query: TaskListQuery, today: int)
  {
    MatchesQuery(t, query.q) && InDueRange(t, query.dueFrom, query.dueTo) && MatchesListFilter(t, query.list, today)
  }

  /** The tasks of ts that pass the filters, in their order in ts. */
  function Selected(ts: seq<Task>, query: TaskListQuery, today: int): seq<Task>
  {
    if ts == [] then []
    else
      var last := ts[|ts| - 1];
      Selected(ts[..|ts| - 1], query, today) + (if Keep(last, query, today) then [last] else [])
  }

  /** Selected keeps exactly the tasks that pass the filters. */
  lemma {:induction false} SelectedMembers(ts: seq<Task>, query: TaskListQuery, today: int, t: Task)
    ensures t in Selected(ts, query, today) <==> t in ts && Keep(t, query, today)
  {
    if ts != [] {
      SelectedMembers(ts[..|ts| - 1], query, today, t);
      assert ts == ts[..|ts| - 1] + [ts[|ts| - 1]];
    }
  }

  /** One more task visited: Selected grows by that task when it passes. */
  lemma SelectedStep(ts: seq<Task>, i: nat, query: TaskListQuery, today: int)
    requires i < |ts|
    ensures Selected(ts[..i + 1], query, today)
              == Selected(ts[..i], query, today) + (if Keep(ts[i], query, today) then [ts[i]] else [])
  {
    assert ts[..i + 1][..i] == ts[..i];
  }

  /** Sorting the selection neither adds nor drops a task. */
  lemma SortedSelectedMembers(ts: seq<Task>, query: TaskListQuery, today: int, t: Task)
    ensures t in SortBy(Selected(ts, query, today), TaskKey) <==> t in ts && Keep(t, query, today)
  {
    var sel := Selected(ts, query, today);
    assert t in SortBy(sel, TaskKey) <==> t in multiset(sel);
    SelectedMembers(ts, query, today, t);
  }

  /** The listing key: due date ascending, undated tasks last. */
  function TaskKey(t: Task): SortKey
  {
    SortKey(t.due.None?, if t.due.Some? then t.due.value else 0, 0)
  }

  /** The subtask key: due date ascending, undated last, then creation time. */
  function SubTaskKey(st: SubTask): SortKey
  {
    SortKey(st.due.None?, if st.due.Some? then st.due.value else 0, st.createdAt)
  }

  /** What a listing sorted by TaskKey looks like: dated tasks first, in
      ascending due order, then the undated ones. */
  lemma TaskOrderMeaning(r: seq<Task>, i: int, j: int)
    requires SortedBy(r, TaskKey) && 0 <= i < j < |r|
    ensures r[i].due.None? ==> r[j].due.None?
    ensures r[i].due.Some? && r[j].due.Some? ==> r[i].due.value <= r[j].due.value
  {
    assert KeyLe(TaskKey(r[i]), TaskKey(r[j]));
  }

  /** Subtasks sorted by SubTaskKey: dated first in ascending due order, then
      undated; equal due dates (or both undated) by ascending creation time. */
  lemma SubTaskOrderMeaning(r: seq<SubTask>, i: int, j: int)
    requires SortedBy(r, SubTaskKey) && 0 <= i < j < |r|
    ensures r[i].due.None? ==> r[j].due.None?
    ensures r[i].due.Some? && r[j].due.Some? ==> r[i].due.value <= r[j].due.value
    ensures r[i].due == r[j].due ==> r[i].createdAt <= r[j].createdAt
  {
    assert KeyLe(SubTaskKey(r[i]), SubTaskKey(r[j]));
  }
}

=== FILE: model.dfy ===
/** Entity shapes and request validation of the task service (model.py).
    Field constraints become predicates; the two validators that raise
    (the query range check and the calendar event check) return a Result. */
module Model {
  import opened Wrappers

  /** Task and subtask identifiers (random UUIDs in the service). */
  type Id = nat

  /** An instant, in seconds since the Unix epoch (UTC). */
  type Timestamp = int

  const MinTitleLength: nat := 1
  const MinDurationMinutes: int := 1
  const MaxDurationMinutes: int := 24 * 60
  const DefaultDurationMinutes: int := 60

  datatype CalendarProvider = Google

  /** The named listing filters. */
  datatype TaskListFilter = Today | Upcoming | Done

  /** The reasons a payload or a query is rejected. */
  datatype Violation =
    | TitleTooShort
    | CalendarIdTooShort
    | SummaryTooShort
    | NegativeReminder
    | UnknownTimezone
    | EndNotAfterStart
    | DueRangeInverted

  // ---------- Field constraints ----------

  /** min_length=1 is all that is checked: a title of spaces is accepted. */
  predicate TitleOk(title: string)
  {
    |title| >= MinTitleLength
  }

  predicate DurationOk(minutes: int)
  {
    MinDurationMinutes <= minutes <= MaxDurationMinutes
  }

  predicate ReminderOk(minutesBefore: Option<int>)
  {
    minutesBefore.None? || minutesBefore.value >= 0
  }

  // ---------- List query ----------

  datatype TaskListQuery = TaskListQuery(
    list: Option<TaskListFilter>,
    q: Option<string>,
    dueFrom: Option<Timestamp>,
    dueTo: Option<Timestamp>)

  /** The instants a query's bounds admit (each bound inclusive and optional). */
  predicate InWindow(dueFrom: Option<Timestamp>, dueTo: Option<Timestamp>, t: Timestamp)
  {
    (dueFrom.None? || dueFrom.value <= t) && (dueTo.None? || t <= dueTo.value)
  }

  /** The model validator of TaskListQuery: rejects an inverted due range. */
  function CheckRange(query: TaskListQuery): (r: Result<TaskListQuery, set<Violation>>)
    ensures r.Ok? ==> r.value == query
    ensures r.Err? ==> r.error == {DueRangeInverted}
  {
    if query.dueFrom.Some? && query.dueTo.Some? && query.dueFrom.value > query.dueTo.value then
      Err({DueRangeInverted})
    else
      Ok(query)
  }

  /** A query is accepted exactly when its due window holds some instant. */
  lemma CheckRangeAcceptsNonEmptyWindow(query: TaskListQuery)
    ensures CheckRange(query).Ok? <==> exists t :: InWindow(query.dueFrom, query.dueTo, t)
  {
    if CheckRange(query).Ok? {
      var t := if query.dueFrom.Some? then query.dueFrom.value
               else if query.dueTo.Some? then query.dueTo.value else 0;
      assert InWindow(query.dueFrom, query.dueTo, t);
    }
  }

  // ---------- Calendar events ----------

  /** The fields of CalendarEventBase, which is also the create-request shape
      CalendarEventCreate. */
  datatype EventFields = EventFields(
    provider: CalendarProvider,
    calendarId: string,
    summary: string,
    start: Timestamp,
    end: Timestamp,
    description: Option<string>,
    timezone: string,
    reminderMinutesBefore: Option<int>)

  /** A saved event: the create-request fields plus the provider's event id. */
  datatype CalendarEvent = CalendarEvent(fields: EventFields, eventId: string)

  /** The field-level violations of an event. zones is the set of IANA zone
      names the timezone database resolves. */
  function EventFieldViolations(e: EventFields, zones: set<string>): set<Violation>
  {
    (if |e.calendarId| < 1 then {CalendarIdTooShort} else {})
    + (if |e.summary| < 1 then {SummaryTooShort} else {})
    + (if !ReminderOk(e.reminderMinutesBefore) then {NegativeReminder} else {})
    + (if e.timezone !in zones then {UnknownTimezone} else {})
  }

  /** Everything an accepted event satisfies. */
  predicate EventOk(e: EventFields, zones: set<string>)
  {
    && |e.calendarId| >= 1
    && |e.summary| >= 1
    && ReminderOk(e.reminderMinutesBefore)
    && e.timezone in zones
    && e.start < e.end
  }

  /** Validation of CalendarEventBase: the field constraints and the timezone
      validator first, reported together; the time-order validator runs only
      on an event whose fields passed. */
  function ValidateEvent(e: EventFields, zones: set<string>): (r: Result<EventFields, set<Violation>>)
    ensures r.Ok? <==> EventOk(e, zones)
    ensures r.Ok? ==> r.value == e
    ensures r.Err? ==> r.error != {}
    ensures r.Err? && EndNotAfterStart in r.error ==> r.error == {EndNotAfterStart} && e.end <= e.start
    ensures e.timezone !in zones ==> r.Err? && UnknownTimezone in r.error
    ensures |e.calendarId| < 1 <==> r.Err? && CalendarIdTooShort in r.error
    ensures |e.summary| < 1 <==> r.Err? && SummaryTooShort in r.error
    ensures !ReminderOk(e.reminderMinutesBefore) <==> r.Err? && NegativeReminder in r.error
    ensures e.timezone !in zones <==> r.Err? && UnknownTimezone in r.error
    ensures (&& |e.calendarId| >= 1 && |e.summary| >= 1 && ReminderOk(e.reminderMinutesBefore)
             && e.timezone in zones && e.end <= e.start) ==> r == Err({EndNotAfterStart})
  {
    var v := EventFieldViolations(e, zones);
    if v != {} then Err(v)
    else if e.end <= e.start then Err({EndNotAfterStart})
    else Ok(e)
  }

  predicate SavedEventOk(ev: CalendarEvent, zones: set<string>)
  {
    EventOk(ev.fields, zones) && |ev.eventId| >= 1
  }

  // ---------- Subtasks ----------

  datatype SubTaskCreate = SubTaskCreate(
    title: string,
    due: Option<Timestamp>,
    completed: bool,
    addToCalendar: bool,
    eventDurationMinutes: int,
    calendarId: Option<string>,
    calendarEventId: Option<string>)

  /** A create payload that gives only the title: every other field takes
      its declared default. */
  function DefaultSubTaskCreate(title: string): (c: SubTaskCreate)
    ensures SubTaskCreateOk(c) <==> TitleOk(title)
    ensures !c.completed && !c.addToCalendar
    ensures c.calendarId.None? && c.calendarEventId.None? && c.due.None?
    ensures c.eventDurationMinutes == DefaultDurationMinutes
  {
    SubTaskCreate(title, None, false, false, DefaultDurationMinutes, None, None)
  }

  predicate SubTaskCreateOk(c: SubTaskCreate)
  {
    TitleOk(c.title) && DurationOk(c.eventDurationMinutes)
  }

  /** SubTaskUpdate: every field optional; None is "omitted or null". */
  datatype SubTaskUpdate = SubTaskUpdate(
    title: Option<string>,
    due: Option<Timestamp>,
    completed: Option<bool>,
    addToCalendar: Option<bool>,
    eventDurationMinutes: Option<int>,
    calendarId: Option<string>,
    calendarEventId: Option<string>)

  predicate SubTaskUpdateOk(p: SubTaskUpdate)
  {
    (p.title.Some? ==> TitleOk(p.title.value))
    && (p.eventDurationMinutes.Some? ==> DurationOk(p.eventDurationMinutes.value))
  }

  datatype SubTask = SubTask(
    id: Id,
    taskId: Id,
    title: string,
    due: Option<Timestamp>,
    completed: bool,
    addToCalendar: bool,
    eventDurationMinutes: int,
    calendarId: Option<string>,
    calendarEventId: Option<string>,
    createdAt: Timestamp,
    updatedAt: Timestamp)

  predicate SubTaskOk(st: SubTask)
  {
    TitleOk(st.title) && DurationOk(st.eventDurationMinutes)
  }

  // ---------- Tasks ----------

  datatype TaskCreate = TaskCreate(
    title: string,
    note: Option<string>,
    due: Option<Timestamp>,
    completed: bool,
    calendarEvent: Option<EventFields>)

  /** A create payload that gives only the title. */
  function DefaultTaskCreate(title: string): (c: TaskCreate)
    ensures forall zones :: TaskCreateOk(c, zones) <==> TitleOk(title)
    ensures !c.completed && c.note.None? && c.due.None? && c.calendarEvent.None?
  {
    TaskCreate(title, None, None, false, None)
  }

  predicate TaskCreateOk(c: TaskCreate, zones: set<string>)
  {
    TitleOk(c.title) && (c.calendarEvent.Some? ==> EventOk(c.calendarEvent.value, zones))
  }

  /** The calendar_event field of a task patch: omitted, explicitly null,
      a create-request shape, or an already saved event. */
  datatype EventPatch = Absent | Null | Create(fields: EventFields) | Saved(event: CalendarEvent)

  /** TaskUpdate: for the scalar fields None is "omitted or null". */
  datatype TaskUpdate = TaskUpdate(
    title: Option<string>,
    note: Option<string>,
    due: Option<Timestamp>,
    completed: Option<bool>,
    calendarEvent: EventPatch)

  predicate TaskUpdateOk(p: TaskUpdate, zones: set<string>)
  {
    && (p.title.Some? ==> TitleOk(p.title.value))
    && (p.calendarEvent.Create? ==> EventOk(p.calendarEvent.fields, zones))
    && (p.calendarEvent.Saved? ==> SavedEventOk(p.calendarEvent.event, zones))
  }

  datatype Task = Task(
    id: Id,
    title: string,
    note: Option<string>,
    due: Option<Timestamp>,
    completed: bool,
    calendarEvent: Option<CalendarEvent>,
    subtasks: seq<SubTask>)

  predicate TaskOk(t: Task, zones: set<string>)
  {
    && TitleOk(t.title)
    && (t.calendarEvent.Some? ==> SavedEventOk(t.calendarEvent.value, zones))
    && forall i :: 0 <= i < |t.subtasks| ==> SubTaskOk(t.subtasks[i])
  }
}

=== FILE: patching.dfy ===
/** What the store's handlers compute (main.py): the merge of a task patch,
    the new and the patched subtask with the automatic calendar event id,
    the subtask lookup and the subtask removal. Ids handed out by the
    simulated calendar provider are parameters here; the store supplies
    them. */
module Patching {
  import opened Wrappers
  import opened Model

  // ---------- Task patch ----------

  /** The scalar fields of a patch written over a task: each changes only
      when the patch gives a value. */
  function OverwriteTask(t: Task, p: TaskUpdate): Task
  {
    t.(title := GetOr(p.title, t.title),
       note := OrElse(p.note, t.note),
       due := OrElse(p.due, t.due),
       completed := GetOr(p.completed, t.completed))
  }

  /** The calendar event after a patch, following the tri-state; issued is
      the event id the provider returns when the patch asks to create one. */
  function PatchedEvent(current: Option<CalendarEvent>, p: EventPatch, issued: string): Option<CalendarEvent>
  {
    match p
    case Absent => current
    case Null => None
    case Create(fields) => Some(CalendarEvent(fields, issued))
    case Saved(ev) => Some(ev)
  }

  /** The task after a patch. */
  function PatchTask(t: Task, p: TaskUpdate, issued: string): Task
  {
    OverwriteTask(t, p).(calendarEvent := PatchedEvent(t.calendarEvent, p.calendarEvent, issued))
  }

  /** A patch never changes a task's id or its subtasks, and can set but
      never clear the note or the due date. */
  lemma PatchTaskFrame(t: Task, p: TaskUpdate, issued: string)
    ensures PatchTask(t, p, issued).id == t.id
    ensures PatchTask(t, p, issued).subtasks == t.subtasks
    ensures t.note.Some? ==> PatchTask(t, p, issued).note.Some?
    ensures t.due.Some? ==> PatchTask(t, p, issued).due.Some?
  {
  }

  /** Each scalar field the patch omits keeps its value, and each one it
      gives is taken from the patch. */
  lemma PatchTaskKeepsOmitted(t: Task, p: TaskUpdate, issued: string)
    ensures var r := PatchTask(t, p, issued);
      && (p.title.None? ==> r.title == t.title) && (p.title.Some? ==> r.title == p.title.value)
      && (p.note.None? ==> r.note == t.note) && (p.note.Some? ==> r.note == p.note)
      && (p.due.None? ==> r.due == t.due) && (p.due.Some? ==> r.due == p.due)
      && (p.completed.None? ==> r.completed == t.completed)
      && (p.completed.Some? ==> r.completed == p.completed.value)
  {
  }

  /** The three-way handling of calendar_event: omitted keeps the event,
      null removes it, a create shape yields a new event carrying the issued
      id, and a saved event is stored as given. */
  lemma PatchTaskEvent(t: Task, p: TaskUpdate, issued: string)
    ensures var e := PatchTask(t, p, issued).calendarEvent;
      && (p.calendarEvent.Absent? ==> e == t.calendarEvent)
      && (p.calendarEvent.Null? ==> e.None?)
      && (p.calendarEvent.Create? ==> e == Some(CalendarEvent(p.calendarEvent.fields, issued)))
      && (p.calendarEvent.Saved? ==> e == Some(p.calendarEvent.event))
  {
  }

  /** The patch that gives no field leaves the task as it was. */
  lemma EmptyPatchIsIdentity(t: Task, issued: string)
    ensures PatchTask(t, TaskUpdate(None, None, None, None, Absent), issued) == t
  {
  }

  /** Applying a patch twice is applying it once, unless it creates an event
      (each creation gets a fresh id). */
  lemma PatchTaskIdempotent(t: Task, p: TaskUpdate, issued: string, issued2: string)
    requires !p.calendarEvent.Create?
    ensures PatchTask(PatchTask(t, p, issued), p, issued2) == PatchTask(t, p, issued)
  {
  }

  /** A valid patch keeps a task valid, given a non-empty issued id. */
  lemma PatchTaskKeepsOk(t: Task, p: TaskUpdate, issued: string, zones: set<string>)
    requires TaskOk(t, zones) && TaskUpdateOk(p, zones) && |issued| >= 1
    ensures TaskOk(PatchTask(t, p, issued), zones)
  {
  }

  // ---------- Subtask creation ----------

  /** Whether create_subtask asks the provider for an event id: the subtask
      goes to a named calendar and no event id was given (an empty given id
      is kept). */
  predicate IssuesOnCreate(c: SubTaskCreate)
  {
    c.addToCalendar && c.calendarEventId.None? && c.calendarId.Some? && c.calendarId.value != ""
  }

  /** The subtask create_subtask builds. The handler reads the clock twice,
      once for created_at and once for updated_at. */
  function NewSubTask(id: Id, taskId: Id, c: SubTaskCreate, createdAt: Timestamp, updatedAt: Timestamp,
                      issued: string): SubTask
  {
    SubTask(id, taskId, c.title, c.due, c.completed, c.addToCalendar, c.eventDurationMinutes,
            c.calendarId, if IssuesOnCreate(c) then Some(issued) else c.calendarEventId, createdAt, updatedAt)
  }

  /** A new subtask copies its payload and belongs to its task. It stores
      the issued event id exactly when the creation rule fires, keeps a given
      id, and has none when none was given and the rule does not fire; so a
      subtask on a named calendar always ends up with an event id (possibly
      the empty one it was given). */
  lemma NewSubTaskMeaning(id: Id, taskId: Id, c: SubTaskCreate, createdAt: Timestamp,
                          updatedAt: Timestamp, issued: string)
    ensures var st := NewSubTask(id, taskId, c, createdAt, updatedAt, issued);
      && st.id == id && st.taskId == taskId && st.createdAt == createdAt && st.updatedAt == updatedAt
      && st.title == c.title && st.due == c.due && st.completed == c.completed
      && st.addToCalendar == c.addToCalendar
      && st.eventDurationMinutes == c.eventDurationMinutes && st.calendarId == c.calendarId
      && (IssuesOnCreate(c) ==> st.calendarEventId == Some(issued))
      && (c.calendarEventId.Some? ==> st.calendarEventId == c.calendarEventId)
      && (c.calendarEventId.None? && !IssuesOnCreate(c) ==> st.calendarEventId.None?)
      && (st.addToCalendar && st.calendarId.Some? && st.calendarId.value != "" ==> st.calendarEventId.Some?)
  {
  }

  /** Unlike an update, creation keeps an explicitly empty event id: the new
      subtask keeps it, and a later update that gives nothing replaces it
      with an issued one when the subtask is on a named calendar. */
  lemma CreateKeepsEmptyEventId(id: Id, taskId: Id, c: SubTaskCreate, createdAt: Timestamp,
                                updatedAt: Timestamp, issued: string, now: Timestamp, reissued: string)
    requires c.calendarEventId == Some("")
    ensures NewSubTask(id, taskId, c, createdAt, updatedAt, issued).calendarEventId == Some("")
    ensures c.addToCalendar && c.calendarId.Some? && c.calendarId.value != "" ==>
      PatchSubTask(NewSubTask(id, taskId, c, createdAt, updatedAt, issued),
                   SubTaskUpdate(None, None, None, None, None, None, None), now, reissued).calendarEventId
        == Some(reissued)
  {
  }

  lemma NewSubTaskKeepsOk(id: Id, taskId: Id, c: SubTaskCreate, createdAt: Timestamp, updatedAt: Timestamp,
                          issued: string)
    requires SubTaskCreateOk(c)
    ensures SubTaskOk(NewSubTask(id, taskId, c, createdAt, updatedAt, issued))
  {
  }

  // ---------- Subtask update ----------

  /** Whether update_subtask asks the provider for an event id after the
      patch: the subtask goes to a named calendar and has no event id or an
      empty one. */
  predicate IssuesOnUpdate(st: SubTask)
  {
    st.addToCalendar && st.calendarId.Some? && st.calendarId.value != ""
    && (st.calendarEventId.None? || st.calendarEventId.value == "")
  }

  /** The patch fields written over a subtask, before the event id rule. */
  function OverwriteSubTask(st: SubTask, p: SubTaskUpdate): SubTask
  {
    st.(title := GetOr(p.title, st.title),
        due := OrElse(p.due, st.due),
        completed := GetOr(p.completed, st.completed),
        addToCalendar := GetOr(p.addToCalendar, st.addToCalendar),
        eventDurationMinutes := GetOr(p.eventDurationMinutes, st.eventDurationMinutes),
        calendarId := OrElse(p.calendarId, st.calendarId),
        calendarEventId := OrElse(p.calendarEventId, st.calendarEventId))
  }

  function PatchSubTask(st: SubTask, p: SubTaskUpdate, now: Timestamp, issued: string): SubTask
  {
    var s := OverwriteSubTask(st, p);
    s.(calendarEventId := if IssuesOnUpdate(s) then Some(issued) else s.calendarEventId,
       updatedAt := now)
  }

  /** After an update, a subtask on a named calendar has a non-empty event id
      (given a non-empty issued id); id, owner and creation time never change;
      updated_at is now. */
  lemma PatchSubTaskMeaning(st: SubTask, p: SubTaskUpdate, now: Timestamp, issued: string)
    requires |issued| >= 1
    ensures var r := PatchSubTask(st, p, now, issued);
      && r.id == st.id && r.taskId == st.taskId && r.createdAt == st.createdAt && r.updatedAt == now
      && (r.addToCalendar && r.calendarId.Some? && r.calendarId.value != "" ==>
            r.calendarEventId.Some? && r.calendarEventId.value != "")
  {
  }

  /** Fields the patch leaves out keep their value (the event id may still be
      filled in by the calendar rule). */
  lemma PatchSubTaskKeepsOmitted(st: SubTask, p: SubTaskUpdate, now: Timestamp, issued: string)
    ensures var r := PatchSubTask(st, p, now, issued);
      && (p.title.None? ==> r.title == st.title)
      && (p.due.None? ==> r.due == st.due)
      && (p.completed.None? ==> r.completed == st.completed)
      && (p.addToCalendar.None? ==> r.addToCalendar == st.addToCalendar)
      && (p.eventDurationMinutes.None? ==> r.eventDurationMinutes == st.eventDurationMinutes)
      && (p.calendarId.None? ==> r.calendarId == st.calendarId)
      && (p.calendarEventId.None? && st.calendarEventId.Some? && st.calendarEventId.value != "" ==>
            r.calendarEventId == st.calendarEventId)
  {
  }

  lemma PatchSubTaskKeepsOk(st: SubTask, p: SubTaskUpdate, now: Timestamp, issued: string)
    requires SubTaskOk(st) && SubTaskUpdateOk(p)
    ensures SubTaskOk(PatchSubTask(st, p, now, issued))
  {
  }

  /** Marking a subtask done or not done. */
  function SetSubTaskCompleted(st: SubTask, done: bool, now: Timestamp): SubTask
  {
    st.(completed := done, updatedAt := now)
  }

  /** Completing (or undoing) sets completed and updated_at and nothing else;
      doing it again changes only updated_at. */
  lemma SetSubTaskCompletedMeaning(st: SubTask, done: bool, now: Timestamp, later: Timestamp)
    ensures var r := SetSubTaskCompleted(st, done, now);
      && r.completed == done && r.updatedAt == now
      && r.(completed := st.completed, updatedAt := st.updatedAt) == st
      && SetSubTaskCompleted(r, done, later) == SetSubTaskCompleted(st, done, later)
  {
  }

  // ---------- Subtask lookup and removal ----------

  predicate UniqueIds(sts: seq<SubTask>)
  {
    forall i, j :: 0 <= i < j < |sts| ==> sts[i].id != sts[j].id
  }

  /** The position of the first subtask with id sid, or |sts| if none. */
  function IndexOf(sts: seq<SubTask>, sid: Id): (r: nat)
    ensures r <= |sts|
    ensures r < |sts| ==> sts[r].id == sid
    ensures forall j :: 0 <= j < r ==> sts[j].id != sid
  {
    if sts == [] then 0
    else if sts[0].id == sid then 0
    else 1 + IndexOf(sts[1..], sid)
  }

  /** The subtasks whose id is not sid, in their original order. */
  function RemoveById(sts: seq<SubTask>, sid: Id): (r: seq<SubTask>)
    ensures |r| <= |sts|
  {
    if sts == [] then []
    else (if sts[0].id != sid then [sts[0]] else []) + RemoveById(sts[1..], sid)
  }

  /** Removal keeps exactly the subtasks whose id is not sid. */
  lemma {:induction false} RemoveByIdMembers(sts: seq<SubTask>, sid: Id, st: SubTask)
    ensures st in RemoveById(sts, sid) <==> st in sts && st.id != sid
  {
    if sts != [] {
      RemoveByIdMembers(sts[1..], sid, st);
      assert sts == [sts[0]] + sts[1..];
    }
  }

  /** When ids are unique, the lookup of a subtask's id finds that subtask. */
  lemma UniqueIndex(sts: seq<SubTask>, i: nat)
    requires UniqueIds(sts) && i < |sts|
    ensures IndexOf(sts, sts[i].id) == i
  {
    var r := IndexOf(sts, sts[i].id);
    assert r <= i;
  }

  /** When ids are unique, removal deletes exactly the one matching
      subtask and keeps the others in order. */
  lemma RemoveUniqueIsSplice(sts: seq<SubTask>, sid: Id)
    requires UniqueIds(sts) && IndexOf(sts, sid) < |sts|
    ensures var i := IndexOf(sts, sid); RemoveById(sts, sid) == sts[..i] + sts[i + 1..]
  {
    RemoveOnlyMatch(sts, sid, IndexOf(sts, sid));
  }

  /** Removal of the id that only position i carries splices position i out. */
  lemma {:induction false} RemoveOnlyMatch(sts: seq<SubTask>, sid: Id, i: nat)
    requires i < |sts| && sts[i].id == sid
    requires forall j :: 0 <= j < |sts| && j != i ==> sts[j].id != sid
    ensures RemoveById(sts, sid) == sts[..i] + sts[i + 1..]
  {
    var rest := sts[1..];
    if i == 0 {
      assert RemoveById(sts, sid) == RemoveById(rest, sid);
      NoneRemoved(rest, sid);
    } else {
      assert RemoveById(sts, sid) == [sts[0]] + RemoveById(rest, sid);
      RemoveOnlyMatch(rest, sid, i - 1);
      assert sts[..i] == [sts[0]] + rest[..i - 1];
      assert sts[i + 1..] == rest[i..];
    }
  }

  lemma {:induction false} NoneRemoved(sts: seq<SubTask>, sid: Id)
    requires forall j :: 0 <= j < |sts| ==> sts[j].id != sid
    ensures RemoveById(sts, sid) == sts
  {
    if sts != [] {
      NoneRemoved(sts[1..], sid);
      assert sts == [sts[0]] + sts[1..];
    }
  }
}

=== FILE: stable_sort.dfy ===
/** The ordering used for listings. Both listings sort by a tuple key
    (undated?, due, created) with Python's stable sort, so the result is
    ordered by the key and elements with equal keys keep their original
    relative order. SortBy is a stable insertion sort that computes that
    result. */
module StableSort {

  /** A sort key: undated items compare after dated ones, then by due
      timestamp, then by creation timestamp (tuples compare
      lexicographically, and False < True). */
  datatype SortKey = SortKey(undated: bool, due: int, created: int)

  predicate KeyLe(a: SortKey, b: SortKey)
  {
    if a.undated != b.undated then !a.undated
    else if a.due != b.due then a.due < b.due
    else a.created <= b.created
  }

  /** KeyLe is a total order on keys. */
  lemma KeyLeTotalOrder(a: SortKey, b: SortKey, c: SortKey)
    ensures KeyLe(a, a)
    ensures KeyLe(a, b) || KeyLe(b, a)
    ensures KeyLe(a, b) && KeyLe(b, a) ==> a == b
    ensures KeyLe(a, b) && KeyLe(b, c) ==> KeyLe(a, c)
  {
  }

  predicate SortedBy<T>(s: seq<T>, key: T -> SortKey)
  {
    forall i, j :: 0 <= i < j < |s| ==> KeyLe(key(s[i]), key(s[j]))
  }

  /** Inserts x in front of the first element whose key is not below x's. */
  function Insert<T>(x: T, s: seq<T>, key: T -> SortKey): (r: seq<T>)
    ensures multiset(r) == multiset(s) + multiset{x}
  {
    if s == [] || KeyLe(key(x), key(s[0])) then [x] + s
    else
      assert s == [s[0]] + s[1..];
      [s[0]] + Insert(x, s[1..], key)
  }

  lemma {:induction false} InsertSorted<T>(x: T, s: seq<T>, key: T -> SortKey)
    requires SortedBy(s, key)
    ensures SortedBy(Insert(x, s, key), key)
  {
    if s != [] && !KeyLe(key(x), key(s[0])) {
      InsertSorted(x, s[1..], key);
      var r := Insert(x, s, key);
      var t := Insert(x, s[1..], key);
      assert r == [s[0]] + t;
      forall j | 1 <= j < |r|
        ensures KeyLe(key(s[0]), key(r[j]))
      {
        assert r[j] in multiset(t);
        assert r[j] == x || r[j] in s[1..];
        KeyLeTotalOrder(key(s[0]), key(x), key(x));
      }
    }
  }

  /** The stable sort of s by key. */
  function SortBy<T>(s: seq<T>, key: T -> SortKey): (r: seq<T>)
    ensures multiset(r) == multiset(s)
    ensures |r| == |s|
    ensures SortedBy(r, key)
  {
    if s == [] then []
    else
      assert s == [s[0]] + s[1..];
      var rest := SortBy(s[1..], key);
      InsertSorted(s[0], rest, key);
      Insert(s[0], rest, key)
  }

  /** The elements of s whose key is k, in their order in s. */
  function WithKey<T>(s: seq<T>, key: T -> SortKey, k: SortKey): (r: seq<T>)
    ensures |r| <= |s|
  {
    if s == [] then [] else (if key(s[0]) == k then [s[0]] else []) + WithKey(s[1..], key, k)
  }

  /** WithKey keeps exactly the elements whose key is k. */
  lemma {:induction false} WithKeyMembers<T>(s: seq<T>, key: T -> SortKey, k: SortKey, x: T)
    ensures x in WithKey(s, key, k) <==> x in s && key(x) == k
  {
    if s != [] {
      WithKeyMembers(s[1..], key, k, x);
      assert s == [s[0]] + s[1..];
    }
  }

  lemma {:induction false} InsertStable<T>(x: T, s: seq<T>, key: T -> SortKey, k: SortKey)
    ensures WithKey(Insert(x, s, key), key, k) == (if key(x) == k then [x] else []) + WithKey(s, key, k)
  {
    var hx: seq<T> := if key(x) == k then [x] else [];
    if s == [] || KeyLe(key(x), key(s[0])) {
      var r := [x] + s;
      assert Insert(x, s, key) == r;
      assert r[0] == x && r[1..] == s;
      assert WithKey(r, key, k) == hx + WithKey(s, key, k);
    } else {
      var t := Insert(x, s[1..], key);
      var r := [s[0]] + t;
      assert Insert(x, s, key) == r;
      assert r[0] == s[0] && r[1..] == t;
      var hs: seq<T> := if key(s[0]) == k then [s[0]] else [];
      var rest := WithKey(s[1..], key, k);
      InsertStable(x, s[1..], key, k);
      assert WithKey(r, key, k) == hs + (hx + rest);
      assert WithKey(s, key, k) == hs + rest;
      KeyLeTotalOrder(key(x), key(x), key(x));
      assert hs == [] || hx == [];
      assert hs + (hx + rest) == hx + (hs + rest);
    }
  }

  /** Stability: sorting keeps the relative order of elements with equal keys. */
  lemma {:induction false} SortByStable<T>(s: seq<T>, key: T -> SortKey, k: SortKey)
    ensures WithKey(SortBy(s, key), key, k) == WithKey(s, key, k)
  {
    if s != [] {
      SortByStable(s[1..], key, k);
      InsertStable(s[0], SortBy(s[1..], key), key, k);
    }
  }

  lemma WithKeyHead<T>(s: seq<T>, key: T -> SortKey)
    requires s != []
    ensures WithKey(s, key, key(s[0])) != []
  {
  }

  /** A sorted sequence is determined by what each key class holds, in
      order; so any stable sort of s (Python's among them) yields SortBy(s). */
  lemma {:induction false} SortedStableUnique<T>(r: seq<T>, s: seq<T>, key: T -> SortKey)
    requires SortedBy(r, key) && SortedBy(s, key)
    requires forall k :: WithKey(r, key, k) == WithKey(s, key, k)
    ensures r == s
  {
    if r != [] { WithKeyHead(r, key); }
    if s != [] { WithKeyHead(s, key); }
    if r != [] && s != [] {
      var a, b := r[0], s[0];
      WithKeyMembers(s, key, key(b), b);
      WithKeyMembers(r, key, key(b), b);
      WithKeyMembers(r, key, key(a), a);
      WithKeyMembers(s, key, key(a), a);
      assert KeyLe(key(a), key(b)) by {
        var j :| 0 <= j < |r| && r[j] == b;
        KeyLeTotalOrder(key(a), key(a), key(a));
      }
      assert KeyLe(key(b), key(a)) by {
        var j :| 0 <= j < |s| && s[j] == a;
        KeyLeTotalOrder(key(b), key(b), key(b));
      }
      KeyLeTotalOrder(key(a), key(b), key(b));
      assert WithKey(r, key, key(a))[0] == a;
      assert WithKey(s, key, key(a))[0] == b;
      forall k
        ensures WithKey(r[1..], key, k) == WithKey(s[1..], key, k)
      {
        assert WithKey(r, key, k) == WithKey(s, key, k);
        assert key(a) == key(b);
        assert WithKey(r, key, k) == (if key(a) == k then [a] else []) + WithKey(r[1..], key, k);
        assert WithKey(s, key, k) == (if key(b) == k then [b] else []) + WithKey(s[1..], key, k);
        if key(a) == k {
          assert WithKey(r[1..], key, k) == WithKey(r, key, k)[1..];
          assert WithKey(s[1..], key, k) == WithKey(s, key, k)[1..];
        } else {
          assert WithKey(r[1..], key, k) == WithKey(r, key, k);
          assert WithKey(s[1..], key, k) == WithKey(s, key, k);
        }
      }
      SortedStableUnique(r[1..], s[1..], key);
      assert r == [a] + r[1..] && s == [b] + s[1..];
    }
  }

  /** The stable sort is characterised by its three properties: a sorted
      permutation that keeps the order within each key is SortBy(s). */
  lemma SortByIsTheStableSort<T>(s: seq<T>, r: seq<T>, key: T -> SortKey)
    requires SortedBy(r, key)
    requires forall k :: WithKey(r, key, k) == WithKey(s, key, k)
    ensures r == SortBy(s, key)
  {
    forall k ensures WithKey(r, key, k) == WithKey(SortBy(s, key), key, k) {
      SortByStable(s, key, k);
    }
    SortedStableUnique(r, SortBy(s, key), key);
  }
}

=== FILE: store.dfy ===
/** The in-memory task store and its request handlers (main.py). The
    module-level dict TASKS becomes the `tasks` map of a TaskStore object,
    with `order` recording the dict's insertion order, which is the order
    the listing visits tasks in. Random identifiers come from counters. */
module Store {
  import opened Wrappers
  import opened Model
  import opened EventIds
  import opened StableSort
  import opened Listing
  import opened Patching

  /** Why a handler fails: a missing task or subtask (HTTP 404), or a
      listing query whose validator raised. */
  datatype StoreError = TaskNotFound | SubtaskNotFound | Rejected(violations: set<Violation>)

  predicate Distinct(ids: seq<Id>)
  {
    forall i, j :: 0 <= i < j < |ids| ==> ids[i] != ids[j]
  }

  /** ids without id (dict deletion, as seen by the iteration order). */
  function Erase(ids: seq<Id>, id: Id): (r: seq<Id>)
    ensures forall x :: x in r <==> x in ids && x != id
    ensures Distinct(ids) ==> Distinct(r)
  {
    if ids == [] then []
    else
      var rest := Erase(ids[1..], id);
      assert Distinct(ids) ==> ids[0] !in ids[1..];
      (if ids[0] != id then [ids[0]] else []) + rest
  }

  /** Erasing an id that does not occur changes nothing. */
  lemma {:induction false} EraseAbsent(ids: seq<Id>, id: Id)
    requires id !in ids
    ensures Erase(ids, id) == ids
  {
    if ids != [] {
      EraseAbsent(ids[1..], id);
      assert ids == [ids[0]] + ids[1..];
    }
  }

  /** In a duplicate-free order, deleting a key removes exactly its one
      position and keeps the other keys in their order. */
  lemma {:induction false} EraseIsSplice(ids: seq<Id>, id: Id, k: nat)
    requires Distinct(ids) && k < |ids| && ids[k] == id
    ensures Erase(ids, id) == ids[..k] + ids[k+1..]
  {
    if k == 0 {
      assert ids[0] !in ids[1..];
      EraseAbsent(ids[1..], id);
    } else {
      var tail := ids[1..];
      assert Distinct(tail);
      EraseIsSplice(tail, id, k - 1);
      assert tail[..k-1] == ids[1..k] && tail[k..] == ids[k+1..];
      assert ids[..k] == [ids[0]] + ids[1..k];
    }
  }

  /** What the store keeps true of the task under key id: it carries that
      key, satisfies the model's constraints, owns its subtasks (each one's
      task_id is the key), and every id in it was handed out before bound. */
  ghost predicate EntryOk(id: Id, t: Task, bound: nat, zones: set<string>)
  {
    && t.id == id && id < bound
    && TaskOk(t, zones)
    && UniqueIds(t.subtasks)
    && forall i :: 0 <= i < |t.subtasks| ==> t.subtasks[i].taskId == id && t.subtasks[i].id < bound
  }

  lemma EntryOkBound(id: Id, t: Task, bound: nat, bound': nat, zones: set<string>)
    requires EntryOk(id, t, bound, zones) && bound <= bound'
    ensures EntryOk(id, t, bound', zones)
  {
  }

  lemma EntryOkAppend(id: Id, t: Task, st: SubTask, bound: nat, zones: set<string>)
    requires EntryOk(id, t, bound, zones)
    requires st.id == bound && st.taskId == id && SubTaskOk(st)
    ensures EntryOk(id, t.(subtasks := t.subtasks + [st]), bound + 1, zones)
  {
  }

  lemma EntryOkReplace(id: Id, t: Task, i: nat, st: SubTask, bound: nat, zones: set<string>)
    requires EntryOk(id, t, bound, zones) && i < |t.subtasks|
    requires st.id == t.subtasks[i].id && st.taskId == id && SubTaskOk(st)
    ensures EntryOk(id, t.(subtasks := t.subtasks[i := st]), bound, zones)
  {
  }

  lemma EntryOkSplice(id: Id, t: Task, i: nat, bound: nat, zones: set<string>)
    requires EntryOk(id, t, bound, zones) && i < |t.subtasks|
    ensures EntryOk(id, t.(subtasks := t.subtasks[..i] + t.subtasks[i + 1..]), bound, zones)
  {
    var s := t.subtasks;
    var r := s[..i] + s[i + 1..];
    assert forall k :: 0 <= k < |r| ==> r[k] == if k < i then s[k] else s[k + 1];
  }

  /** The store invariant, over the store's fields: the keys and the
      iteration order hold the same ids, once each, and every entry is
      EntryOk below the next id to hand out. */
  ghost predicate StoreOk(tasks: map<Id, Task>, order: seq<Id>, bound: nat, zones: set<string>)
  {
    && (forall id :: id in tasks <==> id in order)
    && Distinct(order)
    && (forall id :: id in tasks ==> EntryOk(id, tasks[id], bound, zones))
  }

  lemma StoreOkBound(tasks: map<Id, Task>, order: seq<Id>, bound: nat, zones: set<string>)
    requires StoreOk(tasks, order, bound, zones)
    ensures StoreOk(tasks, order, bound + 1, zones)
  {
    forall k | k in tasks
      ensures EntryOk(k, tasks[k], bound + 1, zones)
    {
      EntryOkBound(k, tasks[k], bound, bound + 1, zones);
    }
  }

  lemma StoreOkInsert(tasks: map<Id, Task>, order: seq<Id>, bound: nat, zones: set<string>, t: Task)
    requires StoreOk(tasks, order, bound, zones) && t.id < bound && t.id !in tasks
    requires EntryOk(t.id, t, bound, zones)
    ensures StoreOk(tasks[t.id := t], order + [t.id], bound, zones)
  {
    assert t.id !in order;
  }

  lemma StoreOkReplace(tasks: map<Id, Task>, order: seq<Id>, bound: nat, zones: set<string>, t: Task)
    requires StoreOk(tasks, order, bound, zones) && t.id in tasks
    requires EntryOk(t.id, t, bound, zones)
    ensures StoreOk(tasks[t.id := t], order, bound, zones)
  {
  }

  lemma StoreOkDelete(tasks: map<Id, Task>, order: seq<Id>, bound: nat, zones: set<string>, id: Id)
    requires StoreOk(tasks, order, bound, zones)
    ensures StoreOk(tasks - {id}, Erase(order, id), bound, zones)
  {
  }

  /** Appending a subtask carrying the next id to a task keeps the store
      valid once that id is handed out. */
  lemma StoreOkAppendSubtask(tasks: map<Id, Task>, order: seq<Id>, bound: nat, zones: set<string>, taskId: Id, st: SubTask)
    requires StoreOk(tasks, order, bound, zones) && taskId in tasks
    requires st.id == bound && st.taskId == taskId && SubTaskOk(st)
    ensures StoreOk(tasks[taskId := tasks[taskId].(subtasks := tasks[taskId].subtasks + [st])], order, bound + 1, zones)
  {
    StoreOkBound(tasks, order, bound, zones);
    EntryOkAppend(taskId, tasks[taskId], st, bound, zones);
    StoreOkReplace(tasks, order, bound + 1, zones, tasks[taskId].(subtasks := tasks[taskId].subtasks + [st]));
  }

  /** Replacing a subtask by one with the same id and owner keeps the store
      valid. */
  lemma StoreOkReplaceSubtask(tasks: map<Id, Task>, order: seq<Id>, bound: nat, zones: set<string>, taskId: Id, i: nat, st: SubTask)
    requires StoreOk(tasks, order, bound, zones) && taskId in tasks && i < |tasks[taskId].subtasks|
    requires st.id == tasks[taskId].subtasks[i].id && st.taskId == taskId && SubTaskOk(st)
    ensures StoreOk(tasks[taskId := tasks[taskId].(subtasks := tasks[taskId].subtasks[i := st])], order, bound, zones)
  {
    EntryOkReplace(taskId, tasks[taskId], i, st, bound, zones);
    StoreOkReplace(tasks, order, bound, zones, tasks[taskId].(subtasks := tasks[taskId].subtasks[i := st]));
  }

  /** Removing a subtask from a valid store is splicing it out of its
      task's list, and keeps the store valid. */
  lemma StoreOkRemoveSubtask(tasks: map<Id, Task>, order: seq<Id>, bound: nat, zones: set<string>, taskId: Id, i: nat)
    requires StoreOk(tasks, order, bound, zones) && taskId in tasks && i < |tasks[taskId].subtasks|
    ensures var sts := tasks[taskId].subtasks;
      && RemoveById(sts, sts[i].id) == sts[..i] + sts[i + 1..]
      && StoreOk(tasks[taskId := tasks[taskId].(subtasks := sts[..i] + sts[i + 1..])], order, bound, zones)
  {
    var t := tasks[taskId];
    assert EntryOk(taskId, t, bound, zones);
    UniqueIndex(t.subtasks, i);
    RemoveUniqueIsSplice(t.subtasks, t.subtasks[i].id);
    EntryOkSplice(taskId, t, i, bound, zones);
    StoreOkReplace(tasks, order, bound, zones, t.(subtasks := t.subtasks[..i] + t.subtasks[i + 1..]));
  }

  class TaskStore {
    /** The tasks by id (TASKS). */
    var tasks: map<Id, Task>
    /** The keys of tasks in insertion order. */
    var order: seq<Id>
    /** The next identifier to hand out. */
    var nextId: nat
    /** How many event ids the simulated calendar provider has issued. */
    var eventSeq: nat
    /** The zone names the timezone database resolves. */
    const zones: set<string>

    ghost predicate Valid()
      reads this
    {
      StoreOk(tasks, order, nextId, zones)
    }

    /** The stored tasks in the order the dict yields them. */
    ghost function Stored(): seq<Task>
      reads this
      requires Valid()
    {
      var ids, byId := order, tasks;
      seq(|ids|, i requires 0 <= i < |ids| && ids[i] in byId => byId[ids[i]])
    }

    lemma StoredIsValues(t: Task)
      requires Valid()
      ensures t in Stored() <==> t in tasks.Values
    {
      if t in tasks.Values {
        var id :| id in tasks && tasks[id] == t;
        var i :| 0 <= i < |order| && order[i] == id;
        assert Stored()[i] == t;
      }
    }

    /** Every stored task is filed under its own id, and its subtasks carry
        that id as task_id and have distinct ids. */
    lemma SubtasksBelongToTask(id: Id)
      requires Valid() && id in tasks
      ensures tasks[id].id == id && UniqueIds(tasks[id].subtasks)
      ensures forall i :: 0 <= i < |tasks[id].subtasks| ==> tasks[id].subtasks[i].taskId == id
    {
    }

    constructor (zones: set<string>)
      ensures Valid() && this.zones == zones
      ensures tasks == map[] && order == [] && nextId == 0 && eventSeq == 0
    {
      this.zones := zones;
      tasks := map[];
      order := [];
      nextId := 0;
      eventSeq := 0;
    }

    /** The simulated provider call: a new event id. */
    method IssueEventId() returns (eventId: string)
      requires Valid()
      modifies this`eventSeq
      ensures Valid()
      ensures eventId == EventId(old(eventSeq)) && eventSeq == old(eventSeq) + 1
    {
      eventId := EventId(eventSeq);
      eventSeq := eventSeq + 1;
    }

    /** A fresh identifier, distinct from every one handed out before. */
    method FreshId() returns (id: Id)
      requires Valid()
      modifies this`nextId
      ensures Valid()
      ensures id == old(nextId) && nextId == id + 1
    {
      id := nextId;
      nextId := nextId + 1;
      StoreOkBound(tasks, order, id, zones);
    }

    /** Lookup of a task by id; a missing id is NotFound. */
    function GetTask(id: Id): (r: Result<Task, StoreError>)
      reads this
      requires Valid()
      ensures r.Ok? <==> id in tasks
      ensures r.Ok? ==> r.value == tasks[id] && r.value.id == id && TaskOk(r.value, zones)
      ensures r.Err? ==> r.error == TaskNotFound
    {
      if id in tasks then Ok(tasks[id]) else Err(TaskNotFound)
    }

    /** The task listing: validates the query, keeps the tasks that pass all
        three filters in dict order, then sorts them stably by due date with
        undated tasks last. "today" is the Colombo day of now. */
    method ListTasks(listFilter: Option<TaskListFilter>, q: Option<string>,
                     dueFrom: Option<Timestamp>, dueTo: Option<Timestamp>, now: Timestamp)
      returns (r: Result<seq<Task>, StoreError>)
      requires Valid()
      ensures r.Err? <==> dueFrom.Some? && dueTo.Some? && dueFrom.value > dueTo.value
      ensures r.Err? ==> r.error == Rejected({DueRangeInverted})
      ensures r.Ok? ==> r.value == SortBy(Selected(Stored(), TaskListQuery(listFilter, q, dueFrom, dueTo), ColomboDay(now)), TaskKey)
      ensures r.Ok? ==> SortedBy(r.value, TaskKey)
      ensures r.Ok? ==> forall t :: t in r.value <==>
                t in tasks.Values && Keep(t, TaskListQuery(listFilter, q, dueFrom, dueTo), ColomboDay(now))
    {
      var checked := CheckRange(TaskListQuery(listFilter, q, dueFrom, dueTo));
      if checked.Err? {
        return Err(Rejected(checked.error));
      }
      var query := checked.value;
      var today := ColomboDay(now);
      ghost var stored := Stored();
      var items: seq<Task> := [];
      var i := 0;
      while i < |order|
        invariant 0 <= i <= |order|
        invariant items == Selected(stored[..i], query, today)
      {
        var task := tasks[order[i]];
        assert task == stored[i];
        SelectedStep(stored, i, query, today);
        if MatchesQuery(task, query.q) && InDueRange(task, query.dueFrom, query.dueTo)
           && MatchesListFilter(task, query.list, today) {
          items := items + [task];
        }
        i := i + 1;
      }
      assert stored[..i] == stored;
      r := Ok(SortBy(items, TaskKey));
      forall t
        ensures t in r.value <==> t in tasks.Values && Keep(t, query, today)
      {
        SortedSelectedMembers(stored, query, today, t);
        StoredIsValues(t);
      }
    }

    method CreateTask(payload: TaskCreate) returns (task: Task)
      requires Valid() && TaskCreateOk(payload, zones)
      modifies this
      ensures Valid()
      ensures task.id == old(nextId) && task.id !in old(tasks) && nextId == old(nextId) + 1
      ensures tasks == old(tasks)[task.id := task] && order == old(order) + [task.id]
      ensures task.title == payload.title && task.note == payload.note && task.due == payload.due
      ensures task.completed == payload.completed && task.subtasks == []
      ensures task.calendarEvent.Some? <==> payload.calendarEvent.Some?
      ensures payload.calendarEvent.Some? ==>
                task.calendarEvent.value == CalendarEvent(payload.calendarEvent.value, EventId(old(eventSeq)))
      ensures eventSeq == old(eventSeq) + (if payload.calendarEvent.Some? then 1 else 0)
    {
      var event: Option<CalendarEvent> := None;
      if payload.calendarEvent.Some? {
        var eventId := IssueEventId();
        event := Some(CalendarEvent(payload.calendarEvent.value, eventId));
      }
      var id := FreshId();
      task := Task(id, payload.title, payload.note, payload.due, payload.completed, event, []);
      StoreOkInsert(tasks, order, nextId, zones, task);
      tasks := tasks[id := task];
      order := order + [id];
    }

    /** The scalar assignments of _apply_task_update: each field the patch
        gives overwrites the task's. */
    static method OverwriteTaskFields(current: Task, patch: TaskUpdate) returns (task: Task)
      ensures task == OverwriteTask(current, patch)
    {
      task := current;
      task := task.(title := GetOr(patch.title, task.title));
      task := task.(note := OrElse(patch.note, task.note));
      task := task.(due := OrElse(patch.due, task.due));
      task := task.(completed := GetOr(patch.completed, task.completed));
    }

    /** The partial update of a task (update_task with _apply_task_update). */
    method UpdateTask(id: Id, patch: TaskUpdate) returns (r: Result<Task, StoreError>)
      requires Valid() && TaskUpdateOk(patch, zones)
      modifies this
      ensures Valid()
      ensures r.Err? <==> id !in old(tasks)
      ensures r.Err? ==> r.error == TaskNotFound && tasks == old(tasks) && eventSeq == old(eventSeq)
      ensures r.Ok? ==> r.value == PatchTask(old(tasks[id]), patch, EventId(old(eventSeq)))
      ensures r.Ok? ==> tasks == old(tasks)[id := r.value]
      ensures r.Ok? ==> eventSeq == old(eventSeq) + (if patch.calendarEvent.Create? then 1 else 0)
      ensures order == old(order) && nextId == old(nextId)
    {
      var found := GetTask(id);
      if found.Err? {
        return Err(TaskNotFound);
      }
      var task := OverwriteTaskFields(found.value, patch);
      match patch.calendarEvent {
        case Absent =>
        case Null =>
          task := task.(calendarEvent := None);
        case Create(fields) =>
          var eventId := IssueEventId();
          task := task.(calendarEvent := Some(CalendarEvent(fields, eventId)));
        case Saved(event) =>
          task := task.(calendarEvent := Some(event));
      }
      assert task == PatchTask(found.value, patch, EventId(old(eventSeq)));
      PatchTaskKeepsOk(found.value, patch, EventId(old(eventSeq)), zones);
      PatchTaskFrame(found.value, patch, EventId(old(eventSeq)));
      StoreOkReplace(tasks, order, nextId, zones, task);
      tasks := tasks[id := task];
      r := Ok(task);
    }

    method DeleteTask(id: Id) returns (r: Result<(), StoreError>)
      requires Valid()
      modifies this
      ensures Valid()
      ensures r.Err? <==> id !in old(tasks)
      ensures r.Err? ==> r.error == TaskNotFound && tasks == old(tasks) && order == old(order)
      ensures r.Ok? ==> tasks == old(tasks) - {id} && order == Erase(old(order), id)
      ensures nextId == old(nextId) && eventSeq == old(eventSeq)
    {
      var found := GetTask(id);
      if found.Err? {
        return Err(TaskNotFound);
      }
      StoreOkDelete(tasks, order, nextId, zones, id);
      tasks := tasks - {id};
      order := Erase(order, id);
      r := Ok(());
    }

    method CompleteTask(id: Id) returns (r: Result<Task, StoreError>)
      requires Valid()
      modifies this
      ensures Valid()
      ensures r.Err? <==> id !in old(tasks)
      ensures r.Err? ==> r.error == TaskNotFound && tasks == old(tasks)
      ensures r.Ok? ==> r.value == old(tasks[id]).(completed := true) && tasks == old(tasks)[id := r.value]
      ensures r.Ok? && old(tasks[id].completed) ==> tasks == old(tasks)
      ensures order == old(order) && nextId == old(nextId) && eventSeq == old(eventSeq)
    {
      var found := GetTask(id);
      if found.Err? {
        return Err(TaskNotFound);
      }
      var task := found.value.(completed := true);
      StoreOkReplace(tasks, order, nextId, zones, task);
      tasks := tasks[id := task];
      r := Ok(task);
    }

    method UndoTask(id: Id) returns (r: Result<Task, StoreError>)
      requires Valid()
      modifies this
      ensures Valid()
      ensures r.Err? <==> id !in old(tasks)
      ensures r.Err? ==> r.error == TaskNotFound && tasks == old(tasks)
      ensures r.Ok? ==> r.value == old(tasks[id]).(completed := false) && tasks == old(tasks)[id := r.value]
      ensures r.Ok? && !old(tasks[id].completed) ==> tasks == old(tasks)
      ensures order == old(order) && nextId == old(nextId) && eventSeq == old(eventSeq)
    {
      var found := GetTask(id);
      if found.Err? {
        return Err(TaskNotFound);
      }
      var task := found.value.(completed := false);
      StoreOkReplace(tasks, order, nextId, zones, task);
      tasks := tasks[id := task];
      r := Ok(task);
    }

    // ---------- Subtasks ----------

    /** A task's subtasks sorted by (undated last, due date, created_at). */
    function ListSubtasks(taskId: Id): (r: Result<seq<SubTask>, StoreError>)
      reads this
      requires Valid()
      ensures r.Err? <==> taskId !in tasks
      ensures r.Err? ==> r.error == TaskNotFound
      ensures r.Ok? ==> multiset(r.value) == multiset(tasks[taskId].subtasks)
      ensures r.Ok? ==> SortedBy(r.value, SubTaskKey)
      ensures r.Ok? ==> forall i :: 0 <= i < |r.value| ==> r.value[i].taskId == taskId
      ensures r.Ok? ==> forall k :: WithKey(r.value, SubTaskKey, k) == WithKey(tasks[taskId].subtasks, SubTaskKey, k)
    {
      if taskId !in tasks then Err(TaskNotFound)
      else
        var sts := tasks[taskId].subtasks;
        var sorted := SortBy(sts, SubTaskKey);
        assert forall i :: 0 <= i < |sorted| ==> sorted[i] in multiset(sts);
        assert forall k :: WithKey(sorted, SubTaskKey, k) == WithKey(sts, SubTaskKey, k) by {
          forall k ensures WithKey(sorted, SubTaskKey, k) == WithKey(sts, SubTaskKey, k) {
            SortByStable(sts, SubTaskKey, k);
          }
        }
        Ok(sorted)
    }

    method CreateSubtask(taskId: Id, payload: SubTaskCreate, createdAt: Timestamp, updatedAt: Timestamp)
      returns (r: Result<SubTask, StoreError>)
      requires Valid() && SubTaskCreateOk(payload)
      modifies this
      ensures Valid()
      ensures r.Err? <==> taskId !in old(tasks)
      ensures r.Err? ==> r.error == TaskNotFound && tasks == old(tasks) && eventSeq == old(eventSeq)
      ensures r.Err? ==> nextId == old(nextId)
      ensures r.Ok? ==> r.value == NewSubTask(old(nextId), taskId, payload, createdAt, updatedAt, EventId(old(eventSeq)))
      ensures r.Ok? ==> nextId == old(nextId) + 1
      ensures r.Ok? ==> tasks == old(tasks)[taskId := old(tasks[taskId]).(subtasks := old(tasks[taskId].subtasks) + [r.value])]
      ensures r.Ok? ==> eventSeq == old(eventSeq) + (if IssuesOnCreate(payload) then 1 else 0)
      ensures order == old(order)
    {
      var found := GetTask(taskId);
      if found.Err? {
        return Err(TaskNotFound);
      }
      var task := found.value;
      var id := FreshId();
      var subtask := SubTask(id, task.id, payload.title, payload.due, payload.completed,
                             payload.addToCalendar, payload.eventDurationMinutes,
                             payload.calendarId, payload.calendarEventId, createdAt, updatedAt);
      if subtask.addToCalendar && subtask.calendarEventId.None?
         && subtask.calendarId.Some? && subtask.calendarId.value != "" {
        var eventId := IssueEventId();
        subtask := subtask.(calendarEventId := Some(eventId));
      }
      StoreOkAppendSubtask(tasks, order, id, zones, taskId, subtask);
      task := task.(subtasks := task.subtasks + [subtask]);
      tasks := tasks[taskId := task];
      r := Ok(subtask);
    }

    /** The field assignments of update_subtask: each field the patch gives
        overwrites the subtask's. */
    static method OverwriteFields(current: SubTask, patch: SubTaskUpdate) returns (subtask: SubTask)
      ensures subtask == OverwriteSubTask(current, patch)
    {
      subtask := current;
      subtask := subtask.(title := GetOr(patch.title, subtask.title));
      subtask := subtask.(due := OrElse(patch.due, subtask.due));
      subtask := subtask.(completed := GetOr(patch.completed, subtask.completed));
      subtask := subtask.(addToCalendar := GetOr(patch.addToCalendar, subtask.addToCalendar));
      subtask := subtask.(eventDurationMinutes := GetOr(patch.eventDurationMinutes, subtask.eventDurationMinutes));
      subtask := subtask.(calendarId := OrElse(patch.calendarId, subtask.calendarId));
      subtask := subtask.(calendarEventId := OrElse(patch.calendarEventId, subtask.calendarEventId));
    }

    /** The calendar rule of update_subtask: a subtask on a named calendar
        without a non-empty event id gets one from the provider. */
    method FillEventId(subtask: SubTask) returns (filled: SubTask)
      requires Valid()
      modifies this`eventSeq
      ensures Valid()
      ensures filled == subtask.(calendarEventId :=
                if IssuesOnUpdate(subtask) then Some(EventId(old(eventSeq))) else subtask.calendarEventId)
      ensures eventSeq == old(eventSeq) + (if IssuesOnUpdate(subtask) then 1 else 0)
    {
      filled := subtask;
      if subtask.addToCalendar && subtask.calendarId.Some? && subtask.calendarId.value != ""
         && (subtask.calendarEventId.None? || subtask.calendarEventId.value == "") {
        var eventId := IssueEventId();
        filled := filled.(calendarEventId := Some(eventId));
      }
    }

    method UpdateSubtask(taskId: Id, subtaskId: Id, patch: SubTaskUpdate, now: Timestamp) returns (r: Result<SubTask, StoreError>)
      requires Valid() && SubTaskUpdateOk(patch)
      modifies this
      ensures Valid()
      ensures r.Err? <==> taskId !in old(tasks) || IndexOf(old(tasks[taskId].subtasks), subtaskId) == |old(tasks[taskId].subtasks)|
      ensures r.Err? ==> r.error == (if taskId in old(tasks) then SubtaskNotFound else TaskNotFound)
      ensures r.Err? ==> tasks == old(tasks) && eventSeq == old(eventSeq)
      ensures r.Ok? ==>
        var sts := old(tasks[taskId].subtasks);
        var i := IndexOf(sts, subtaskId);
        && r.value == PatchSubTask(sts[i], patch, now, EventId(old(eventSeq)))
        && tasks == old(tasks)[taskId := old(tasks[taskId]).(subtasks := sts[i := r.value])]
        && eventSeq == old(eventSeq) + (if IssuesOnUpdate(OverwriteSubTask(sts[i], patch)) then 1 else 0)
      ensures order == old(order) && nextId == old(nextId)
    {
      var found := GetTask(taskId);
      if found.Err? {
        return Err(TaskNotFound);
      }
      var task := found.value;
      var i := IndexOf(task.subtasks, subtaskId);
      if i == |task.subtasks| {
        return Err(SubtaskNotFound);
      }
      var subtask := OverwriteFields(task.subtasks[i], patch);
      subtask := FillEventId(subtask);
      subtask := subtask.(updatedAt := now);
      PatchSubTaskKeepsOk(task.subtasks[i], patch, now, EventId(old(eventSeq)));
      PatchSubTaskMeaning(task.subtasks[i], patch, now, EventId(old(eventSeq)));
      StoreOkReplaceSubtask(tasks, order, nextId, zones, taskId, i, subtask);
      task := task.(subtasks := task.subtasks[i := subtask]);
      tasks := tasks[taskId := task];
      r := Ok(subtask);
    }

    method DeleteSubtask(taskId: Id, subtaskId: Id) returns (r: Result<(), StoreError>)
      requires Valid()
      modifies this
      ensures Valid()
      ensures r.Err? <==> taskId !in old(tasks) || IndexOf(old(tasks[taskId].subtasks), subtaskId) == |old(tasks[taskId].subtasks)|
      ensures r.Err? ==> r.error == (if taskId in old(tasks) then SubtaskNotFound else TaskNotFound)
      ensures r.Err? ==> tasks == old(tasks)
      ensures r.Ok? ==>
        var sts := old(tasks[taskId].subtasks);
        var i := IndexOf(sts, subtaskId);
        tasks == old(tasks)[taskId := old(tasks[taskId]).(subtasks := sts[..i] + sts[i + 1..])]
      ensures order == old(order) && nextId == old(nextId) && eventSeq == old(eventSeq)
    {
      var found := GetTask(taskId);
      if found.Err? {
        return Err(TaskNotFound);
      }
      var task := found.value;
      var i := IndexOf(task.subtasks, subtaskId);
      if i == |task.subtasks| {
        return Err(SubtaskNotFound);
      }
      var subtask := task.subtasks[i];
      StoreOkRemoveSubtask(tasks, order, nextId, zones, taskId, i);
      task := task.(subtasks := RemoveById(task.subtasks, subtask.id));
      tasks := tasks[taskId := task];
      r := Ok(());
    }

    method CompleteSubtask(taskId: Id, subtaskId: Id, now: Timestamp) returns (r: Result<SubTask, StoreError>)
      requires Valid()
      modifies this
      ensures Valid()
      ensures r.Err? <==> taskId !in old(tasks) || IndexOf(old(tasks[taskId].subtasks), subtaskId) == |old(tasks[taskId].subtasks)|
      ensures r.Err? ==> r.error == (if taskId in old(tasks) then SubtaskNotFound else TaskNotFound)
      ensures r.Err? ==> tasks == old(tasks)
      ensures r.Ok? ==>
        var sts := old(tasks[taskId].subtasks);
        var i := IndexOf(sts, subtaskId);
        && r.value == SetSubTaskCompleted(sts[i], true, now)
        && tasks == old(tasks)[taskId := old(tasks[taskId]).(subtasks := sts[i := r.value])]
      ensures order == old(order) && nextId == old(nextId) && eventSeq == old(eventSeq)
    {
      var found := GetTask(taskId);
      if found.Err? {
        return Err(TaskNotFound);
      }
      var task := found.value;
      var i := IndexOf(task.subtasks, subtaskId);
      if i == |task.subtasks| {
        return Err(SubtaskNotFound);
      }
      var subtask := task.subtasks[i].(completed := true);
      subtask := subtask.(updatedAt := now);
      StoreOkReplaceSubtask(tasks, order, nextId, zones, taskId, i, subtask);
      task := task.(subtasks := task.subtasks[i := subtask]);
      tasks := tasks[taskId := task];
      r := Ok(subtask);
    }

    method UndoSubtask(taskId: Id, subtaskId: Id, now: Timestamp) returns (r: Result<SubTask, StoreError>)
      requires Valid()
      modifies this
      ensures Valid()
      ensures r.Err? <==> taskId !in old(tasks) || IndexOf(old(tasks[taskId].subtasks), subtaskId) == |old(tasks[taskId].subtasks)|
      ensures r.Err? ==> r.error == (if taskId in old(tasks) then SubtaskNotFound else TaskNotFound)
      ensures r.Err? ==> tasks == old(tasks)
      ensures r.Ok? ==>
        var sts := old(tasks[taskId].subtasks);
        var i := IndexOf(sts, subtaskId);
        && r.value == SetSubTaskCompleted(sts[i], false, now)
        && tasks == old(tasks)[taskId := old(tasks[taskId]).(subtasks := sts[i := r.value])]
      ensures order == old(order) && nextId == old(nextId) && eventSeq == old(eventSeq)
    {
      var found := GetTask(taskId);
      if found.Err? {
        return Err(TaskNotFound);
      }
      var task := found.value;
      var i := IndexOf(task.subtasks, subtaskId);
      if i == |task.subtasks| {
        return Err(SubtaskNotFound);
      }
      var subtask := task.subtasks[i].(completed := false);
      subtask := subtask.(updatedAt := now);
      StoreOkReplaceSubtask(tasks, order, nextId, zones, taskId, i, subtask);
      task := task.(subtasks := task.subtasks[i := subtask]);
      tasks := tasks[taskId := task];
      r := Ok(subtask);
    }
  }
}

=== FILE: wrappers.dfy ===
/** Optional values and results with an error, used wherever the source
    uses None or raises. */
module Wrappers {

  datatype Option<+T> = None | Some(value: T)

  /** The given value, or current when none is given (a patch field that is
      applied only when it is not None). */
  function GetOr<T>(given: Option<T>, current: T): T
  {
    if given.Some? then given.value else current
  }

  /** The same for a field that is itself optional: a given value replaces
      it, an absent one leaves it. */
  function OrElse<T>(given: Option<T>, current: Option<T>): Option<T>
  {
    if given.Some? then given else current
  }

  datatype Result<+T, +E> = Ok(value: T) | Err(error: E)
}
